=== FILE: README.md ===
# Firestore access-token proxy — Dafny model

The proxy turns a service-account credential into short-lived bearer tokens
for the Firestore REST API and forwards document requests on behalf of its
clients. It ships as two near-identical entry points: a serverless handler
(`api/index.js`, credential from the `FIREBASE_SERVICE_ACCOUNT` environment
variable) and a standalone Express server (`server.js`, credential from
`private-key.json`). This project models them once, with the deployment as a
parameter (`TokenCache.Variant`).

Modules, following the program's structure:

- `Wrappers` — `Option` and `Result`.
- `TokenCache` — `getAccessToken`: the two-field cache (`cachedToken`,
  `tokenExpiry`), the strict 300-second reuse buffer, the fixed 3600-second
  lifetime, the assertion claims, and what a failed refresh leaves behind.
  The clock, the credential load and the token exchange are inputs.
- `FieldEncoding` — the request-body loop that tags string, number and
  boolean fields as `stringValue`, `integerValue` and `booleanValue` and
  drops everything else; its inverse; the loop itself as a method.
- `Paths` — `url.split('?')[0]` and `path.split('/').filter(Boolean)`, with
  JavaScript's `split` characterised as the unique cut into separator-free
  parts.
- `Routing` — the serverless handler's dispatch of `(method, url)` to an
  action.
- `Gateway` — the store call each route makes, the reply shaping (relay,
  delete normalisation, token endpoint), and the serverless handler's whole
  request-to-reply step.

JavaScript truthiness is modelled explicitly: a token slot or an
`access_token` field counts as present only when it holds a non-empty string
(`TokenCache.Truthy`). The clock is `Date.now()` in milliseconds
(`Gateway.World`), turned into seconds with `TokenCache.EpochSeconds`.

Behaviour of the code worth knowing:

- The standalone server answers list, get and upsert with status 200 and the
  store's body even when the store reports an error. It does not relay the
  store's status, which the serverless handler does (`Gateway.RelayReply`).
- A path under `/api/firestore` that matches no operation, such as `PUT` or a
  bare `/api/firestore`, still acquires a token before answering 404. A token
  failure there yields 500, not 404 (`Routing.Action.TokenThenNotFound`).
- A malformed credential is reported with the runtime's own parse or signing
  error. Only an unset or empty environment variable in the serverless
  handler gets the fixed "not set" message (`TokenCache.CredentialError`).
- A body key `__proto__` never reaches the store. The assignment
  `fields[key] = ...` invokes the prototype setter instead of creating a field
  (`FieldEncoding.Kept`).
- The stored expiry is always `now + 3600`, computed locally. Nothing the
  authorization server returns besides `access_token` is read.

## Model

| member | source | states |
|---|---|---|
| `TokenCache.GetAccessToken` | api/index.js:8-52 | A hit (non-empty token, expiry strictly greater than now+300) returns the cached token, changes nothing and sends no assertion. An exchange happens exactly on a miss with a loadable credential. A normal return hands out the cached token, which then has more than 300 s left. Any failure leaves both fields unchanged. On a miss the call succeeds exactly when the credential loads and the reply has a non-empty `access_token`, which is stored with now+3600 and returned; otherwise it throws the matching error (credential, transport, or "Failed to get access token"). The only state change is to a granted token expiring at now+3600. Every sent assertion has iat=now, exp=now+3600, the token endpoint as audience, the deployment's scope and the credential's issuer |
| `TokenCache.DeploymentsAgree` | server.js:16-56 | The file-based copy makes the same cache decisions and returns the same tokens as the environment-based one. Its scope is the serverless scope without the leading datastore scope |
| `TokenCache.EpochSeconds` | api/index.js:9 | `Math.floor(Date.now()/1000)`: the whole seconds s with s*1000 <= ms < s*1000+1000. Used for both `now` and the reply time of a request |
| `TokenCache.RefreshReplacesWholeState` | api/index.js:45-48 | A granted refresh replaces both fields together with (access_token, now+3600), returns the token, and sends the assertion built for this call |
| `TokenCache.RefreshAtBuffer` | server.js:19-52 | At or after expiry-300, or with no token, a call with a loadable credential makes exactly one exchange. A granted token is stored with expiry now+3600 |
| `TokenCache.QuietUntilBuffer` | api/index.js:11-14 | After a token with expiry E is cached, any sequence of calls made strictly before E-300 has each call return that token, makes no exchange and leaves the cache unchanged |
| `TokenCache.FirstTokenNeedsExchange` | api/index.js:4-5 | From the start-up state (null, 0), no call succeeds without an exchange |
| `TokenCache.StepPreservesCoherent` | api/index.js:45-51 | One call keeps the cache either empty-with-expiry-0 or holding a non-empty token |
| `TokenCache.RunPreservesCoherent` | api/index.js:3-5 | Across any sequence of calls from a coherent state, the cache stays empty with expiry 0 or holds a non-empty token |
| `TokenCache.RunEndsInGrant` | api/index.js:45-48 | After any sequence of calls the cache is never a half-updated pair: it is the starting state, or exactly the token one of the calls was granted together with that call's now+3600 |
| `TokenCache.ExpiryNeverDecreases` | api/index.js:12-47 | From a coherent state and with a non-negative clock, no call moves the stored expiry backwards |
| `FieldEncoding.EncodeValue` | api/index.js:138-144 | A value has an encoding exactly when its JSON type is string, number or boolean, and the encoding decodes back to the value |
| `FieldEncoding.EncodeFields` | api/index.js:135-145 | A key is in `fields` exactly when it is in the body with a string, number or boolean value and is not `__proto__`. No key is added or renamed, and each kept field decodes to its body value |
| `FieldEncoding.EncodeBody` | server.js:106-118 | The entry-by-entry loop, with an assignment to `__proto__` adding no field, produces exactly the `fields` object `EncodeFields` describes |
| `FieldEncoding.DecodeFields` | api/index.js:139-143 | Decoding keeps the keys of a `fields` object and yields only string, number and boolean values |
| `FieldEncoding.DecodeAfterEncode` | api/index.js:137-145 | Decoding the encoded body yields exactly the body's string, number and boolean fields other than `__proto__` |
| `FieldEncoding.RoundTrip` | api/index.js:135-145 | A body of strings, numbers and booleans without a `__proto__` key survives encode-then-decode unchanged |
| `FieldEncoding.EncodeAfterDecode` | server.js:110-118 | Every `fields` object, less any `__proto__` key, is the encoding of its own decoding |
| `FieldEncoding.ExampleBody` | server.js:106-118 | `{"name":"Ann","age":30}` encodes to `{"name":{"stringValue":"Ann"},"age":{"integerValue":30}}`. A nested object beside a string is dropped, not rejected, and so is a string under `__proto__` |
| `Paths.Split` | api/index.js:71 | `split` returns at least one part, no part contains the separator, and the parts joined with the separator give back the input |
| `Paths.SplitUnique` | api/index.js:70-71 | Any separator-free cutting that joins back to the input is the one `split` returns |
| `Paths.StripQuery` | api/index.js:70 | The path is the longest `?`-free prefix of the URL: a prefix with no `?`, followed in the URL by `?` or by nothing |
| `Paths.QueryIgnored` | api/index.js:70 | For a `?`-free path, `path + "?" + query` strips back to the path |
| `Paths.NonEmpty` | api/index.js:71 | Every kept part is non-empty, and a string is kept exactly when it is a non-empty part. Order and multiplicity are stated by `NonEmptyAppend` and `NonEmptySingle` |
| `Paths.Segments` | api/index.js:71 | Path segments are non-empty and contain no `/`. Which segments, in which order, is stated by `SegmentsAppend` and `SegmentsOfName` |
| `Paths.SplitAppend` | api/index.js:71 | Splitting `a + sep + b` gives the parts of `a` followed by the parts of `b` |
| `Paths.NonEmptyAppend` | api/index.js:71 | `filter(Boolean)` distributes over concatenation, so it keeps order and multiplicity |
| `Paths.NonEmptySingle` | api/index.js:71 | A single part is kept exactly when it is non-empty |
| `Paths.SegmentsAppend` | api/index.js:70-71 | The segments of `a/b` are those of `a` followed by those of `b` |
| `Paths.SegmentsOfName` | api/index.js:71 | A non-empty `/`-free string is exactly one segment |
| `Routing.Classify` | api/index.js:64-179 | OPTIONS on any URL, and only OPTIONS, is a preflight. `/` and `/health` are health for every other method. Exactly `GET /api/token` is the token route. Store routes require the segments `api/firestore/<c>[/<d>]`. Conversely, under `api/firestore` a GET with three segments lists, and with four or more GET, POST and DELETE map to get, upsert and delete on segments 3 and 4. Every other combination under that prefix is a 404 after a token. A request is "not found" exactly when it is none of the above and not under `api/firestore` |
| `Routing.QueryStringIgnored` | api/index.js:69-71 | Appending a query string never changes the action |
| `Routing.LongPathDispatch` | api/index.js:75-104 | A path of four or more segments matches neither the health nor the token route, so only the store dispatch applies |
| `Routing.ExtraSegmentsIgnored` | api/index.js:100-104 | Two URLs whose first four segments agree get the same action: later segments are ignored |
| `Gateway.ProjectId` | api/index.js:102 | The project is `FIREBASE_PROJECT_ID` when that is non-empty in the serverless handler, otherwise `nosql-demo-e5885` |
| `Gateway.RelayReply` | server.js:85-90 | List, get and upsert relay the store's JSON body verbatim: with the store's status in the serverless handler and with 200 in the standalone server. An unreachable store or a non-JSON body is a 500 carrying the thrown error (`StoreUnreachable`, `StoreBodyUnparsable`) |
| `Gateway.DeleteReply` | server.js:165-175 | The reply is `{success:true, message:"Document deleted"}` exactly when the store status is ok (200-299), whatever the store's body, and then its status is 200. A non-ok status with a JSON body is relayed with that status and body. An unreachable store, or a non-ok status whose body is not JSON, is a 500 |
| `Gateway.Serve` | api/index.js:90-176 | A token failure is a 500 that makes no store call and leaves the cache unchanged. Every store call carries the cached token, which has more than 300 s left. The token route reports the token `getAccessToken` returned and `tokenExpiry - now'` from the cache it left, makes no store call, and keeps that cache. Each store route calls its own document URL with the matching verb, and only upsert sends a document, the encoded body. With a token, a store route always makes its call, and its reply is the delete normalisation for DELETE and the relay otherwise |
| `Gateway.Dispatch` | api/index.js:54-185 | A routed request is handled as `Serve` handles it. Preflight, health and unmatched requests leave the cache alone and call nothing, answering 200, 200 and 404. "Route not found" answers exactly the unmatched requests, plus store-prefix mismatches once a token was acquired. A store-prefix mismatch still acquires a token: it keeps the cache `getAccessToken` left, makes no call, and answers 404 after a token or a 500 after a token failure. Store calls only follow a successful acquisition. The cache changes only to the token granted during this request, expiring at now+3600 |
| `Gateway.TokenEndpointExpiresIn` | server.js:66-70 | `expires_in` exceeds 300 minus the seconds elapsed since the token check, and after a refresh equals 3600 minus them |
| `Gateway.ReadWithCachedToken` | api/index.js:118-128 | For any names, `GET /api/firestore/<c>/<d>` with a valid cached token reads that document with that token and relays the store's status and body untranslated, leaving the cache as it was |
| `Gateway.PatchWithCachedToken` | api/index.js:130-158 | For any names, `POST /api/firestore/<c>/<d>` with a valid cached token patches that document with the encoded body and that token, leaving the cache as it was |
| `Gateway.GetDocumentScenario` | api/index.js:118-128 | `GET /api/firestore/users/42` with a valid cached token reads `.../documents/users/42` with that token and relays the store's status and body untranslated, leaving the cache as it was |
| `Gateway.UpsertScenario` | api/index.js:130-158 | `POST /api/firestore/users/42` with `{"name":"Ann","age":30}` patches that document with `{"name":{"stringValue":"Ann"},"age":{"integerValue":30}}` |
| `Gateway.ListRequestHandled` | api/index.js:107-116 | For any collection name, `GET /api/firestore/<c>` with a token reads that collection with the token and relays the store's answer. A token failure is a 500 that leaves the cache unchanged and makes no call |
| `Gateway.DocumentRequestHandled` | api/index.js:118-175 | For any names, GET, POST or DELETE on `/api/firestore/<c>/<d>` with a token reaches that document with read, patch or delete. Only POST sends the encoded body. The reply is the delete normalisation for DELETE and the relay otherwise. A token failure is a 500 that leaves the cache unchanged |
| `Gateway.ReplayPreservesCoherent` | api/index.js:3-5 | Across any sequence of requests to the serverless handler, the cache stays empty with expiry 0 or holds a non-empty token |
| `Gateway.ReplayEndsInGrant` | api/index.js:45-48 | After any sequence of requests to the serverless handler the cache is the starting state, or exactly the token and now+3600 granted to one of those requests |

## Left out

- Network calls: the `fetch` to the token endpoint and to Firestore are inputs (`ExchangeResult`, `StoreOutcome`). A transport failure or an unparsable token reply is folded into `TransportFailure`.
- Signing and encoding of the assertion (RS256 as in section 3.3 of RFC 7518, JWT serialisation as in RFC 7519) and the form-encoded JWT-bearer POST (section 2.1 of RFC 7523). The model keeps the assertion's claims only.
- Credential loading: `JSON.parse` of the environment variable or of `private-key.json` is reduced to `CredentialLoad` (loaded with an issuer, unset, or unusable).
- Express routing in the standalone server is left out as framework plumbing: path matching, URL-decoding of route parameters, trailing slashes, case-insensitivity, Express's own 404 and OPTIONS answers. Its handlers are modelled from the routed request onwards (`Gateway.Serve` with `Standalone`).
- CORS headers, `console` logging, `app.listen`, the health body's timestamp and endpoint list, and other response headers are left out as plumbing.
- Concurrency: requests are handled one at a time, so the refresh stampede between concurrent requests is not modelled.
- Numbers are integers: non-integer, `NaN` and infinite JSON numbers (sent as `integerValue` unchanged) are not modelled.
- An `access_token` that is a truthy non-string JSON value is not modelled; the exchange yields a string or nothing.
- The request body is a flat map. A body that is not an object, where `Object.entries` would throw or behave differently, is not modelled. Neither is the key order of the serialised `fields` object.
- Error message texts from the runtime (parse, file-system and network errors) are represented by their cause (`TokenError`, `ErrorCause`), not by their wording.

=== FILE: field_encoding.dfy ===
/** Translation of a flat JSON request body into the document store's typed
    wire format (`{fields: {name: {stringValue|integerValue|booleanValue: v}}}`),
    as done by the upsert route of both entry points. */
module FieldEncoding {
  import opened Wrappers

  /** A JSON value as parsed from a request body. Numbers are integers here. */
  datatype JsonValue =
    | JNull
    | JBool(b: bool)
    | JNumber(n: int)
    | JString(s: string)
    | JArray(items: seq<JsonValue>)
    | JObject(members: seq<(string, JsonValue)>)

  /** A typed field value of the document store's wire format. */
  datatype WireValue = StringValue(s: string) | IntegerValue(n: int) | BooleanValue(b: bool)

  /** The JSON types the encoder keeps: `typeof` is string, number or boolean. */
  predicate Scalar(v: JsonValue) {
    v.JString? || v.JNumber? || v.JBool?
  }

  /** The one key an assignment `fields[key] = ...` on a plain object does
      not create: it sets the object's prototype instead, so the key never
      reaches the serialised `fields`. */
  const ProtoKey: string := "__proto__"

  /** Whether the encoder keeps a body entry: a scalar under an ordinary key. */
  predicate Kept(key: string, v: JsonValue) {
    key != ProtoKey && Scalar(v)
  }

  /** Reads a wire value back as the JSON value it tags. */
  function DecodeValue(w: WireValue): (v: JsonValue)
    ensures Scalar(v)
  {
    match w
    case StringValue(s) => JString(s)
    case IntegerValue(n) => JNumber(n)
    case BooleanValue(b) => JBool(b)
  }

  /** Tags one body value by its JSON type; other types have no encoding. */
  function EncodeValue(v: JsonValue): (r: Option<WireValue>)
    ensures r.Some? <==> Scalar(v)
    ensures r.Some? ==> DecodeValue(r.value) == v
  {
    match v
    case JString(s) => Some(StringValue(s))
    case JNumber(n) => Some(IntegerValue(n))
    case JBool(b) => Some(BooleanValue(b))
    case _ => None
  }

  /** The `fields` object sent to the store for a request body. */
  function EncodeFields(body: map<string, JsonValue>): (fields: map<string, WireValue>)
    // no key is invented or renamed; exactly the unsupported values, and a
    // `__proto__` key, are dropped
    ensures forall k :: k in fields <==> k in body && Kept(k, body[k])
    // each kept field carries its own value under the matching tag
    ensures forall k :: k in fields ==> DecodeValue(fields[k]) == body[k]
  {
    map k | k in body && Kept(k, body[k]) :: EncodeValue(body[k]).value
  }

  /** Reads a `fields` object back as a flat JSON body. */
  function DecodeFields(fields: map<string, WireValue>): (body: map<string, JsonValue>)
    ensures body.Keys == fields.Keys
    ensures forall k :: k in body ==> Scalar(body[k])
  {
    map k | k in fields :: DecodeValue(fields[k])
  }

  /** Decoding the encoded body recovers every kept field and nothing else. */
  lemma DecodeAfterEncode(body: map<string, JsonValue>)
    ensures DecodeFields(EncodeFields(body)) == map k | k in body && Kept(k, body[k]) :: body[k]
  {
  }

  /** A body of strings, numbers and booleans survives the round trip intact. */
  lemma RoundTrip(body: map<string, JsonValue>)
    requires forall k :: k in body ==> Scalar(body[k])
    requires ProtoKey !in body
    ensures DecodeFields(EncodeFields(body)) == body
  {
  }

  /** Every `fields` object without a `__proto__` key is the encoding of its
      own decoding. */
  lemma EncodeAfterDecode(fields: map<string, WireValue>)
    ensures EncodeFields(DecodeFields(fields)) == fields - {ProtoKey}
  {
  }

  /** The encoding loop: visit the body's entries one at a time and add the
      tagged form of each supported value under its key; an assignment to
      `__proto__` adds no field. */
  method EncodeBody(body: map<string, JsonValue>) returns (fields: map<string, WireValue>)
    ensures fields == EncodeFields(body)
  {
    fields := map[];
    var pending := body.Keys;
    while pending != {}
      invariant pending <= body.Keys
      invariant forall k :: k in fields <==> k in body && k !in pending && Kept(k, body[k])
      invariant forall k :: k in fields ==> DecodeValue(fields[k]) == body[k]
      decreases pending
    {
      var key :| key in pending;
      match EncodeValue(body[key]) {
        case Some(w) =>
          if key != ProtoKey {
            fields := fields[key := w];
          }
        case None =>
      }
      pending := pending - {key};
    }
    SameDecodingSameFields(fields, EncodeFields(body));
  }

  /** Two field maps with the same keys whose values decode alike are equal. */
  lemma SameDecodingSameFields(a: map<string, WireValue>, b: map<string, WireValue>)
    requires a.Keys == b.Keys
    requires forall k :: k in a ==> DecodeValue(a[k]) == DecodeValue(b[k])
    ensures a == b
  {
  }

  /** The example body `{"name":"Ann","age":30}` becomes
      `{"name":{"stringValue":"Ann"},"age":{"integerValue":30}}`, and a nested
      object beside them is dropped rather than rejected, as is a string under
      `__proto__`. */
  lemma ExampleBody()
    ensures EncodeFields(map["name" := JString("Ann"), "age" := JNumber(30)])
         == map["name" := StringValue("Ann"), "age" := IntegerValue(30)]
    ensures EncodeFields(map["name" := JString("Ann"), "tags" := JObject([])])
         == map["name" := StringValue("Ann")]
    ensures EncodeFields(map[ProtoKey := JString("x")]) == map[]
  {
  }
}

=== FILE: gateway.dfy ===
/** Request handling on top of the token cache: the store calls each route
    makes, the replies it gives, and the serverless handler's full
    request-to-reply step. Store and token-server replies are inputs. */
module Gateway {
  import opened Wrappers
  import opened TokenCache
  import opened FieldEncoding
  import opened Paths
  import opened Routing

  /** Project used when `FIREBASE_PROJECT_ID` is unset (always, in the standalone server). */
  const DefaultProjectId: string := "nosql-demo-e5885"

  /** What the document store answered: its status and its body, `None` when
      the body is not valid JSON. */
  datatype StoreReply = StoreReply(status: int, body: Option<JsonValue>)

  /** A store call either gets an answer or fails in transport. */
  datatype StoreOutcome = Responded(reply: StoreReply) | Unreachable

  /** The Fetch standard's `response.ok`. */
  predicate StatusOk(status: int) {
    200 <= status <= 299
  }

  /** Why a request ended in a 500 reply carrying the error's message. */
  datatype ErrorCause = TokenFailure(error: TokenError) | StoreUnreachable | StoreBodyUnparsable

  /** The JSON body the proxy sends back (headers, timestamps and endpoint
      lists left out). */
  datatype ReplyBody =
    | NoContent
    | HealthStatus
    | TokenGrant(accessToken: string, expiresIn: int)
    | Relayed(json: JsonValue)
    | DeleteConfirmed          // {success: true, message: "Document deleted"}
    | RouteNotFound            // {error: "Route not found"}
    | ServerError(cause: ErrorCause)

  datatype Reply = Reply(status: int, body: ReplyBody)

  datatype StoreVerb = Read | Patch | Remove

  /** An outbound call to the document store, with its bearer token and, for
      a patch, the `fields` object sent. */
  datatype StoreCall = StoreCall(verb: StoreVerb, url: string, bearer: string, document: Option<map<string, WireValue>>)

  /** Everything outside the process one request observes. */
  datatype World = World(
    clockMillis: int,          // Date.now() when getAccessToken runs
    replyMillis: int,          // Date.now() when the token reply is built
    credential: CredentialLoad,
    exchange: ExchangeResult,
    projectEnv: Option<string>, // FIREBASE_PROJECT_ID
    store: StoreOutcome)
  {
    /** The `now` of `getAccessToken`, in whole seconds. */
    function Now(): int {
      EpochSeconds(clockMillis)
    }

    /** The seconds `expires_in` is measured from. */
    function ReplyNow(): int {
      EpochSeconds(replyMillis)
    }
  }

  /** The outcome of one request: the reply, the cache afterwards, and the
      store call made, if any. */
  datatype Handled = Handled(reply: Reply, cache: CacheState, call: Option<StoreCall>)

  /** The project whose documents are addressed. */
  function ProjectId(v: Variant, env: Option<string>): (id: string)
    ensures id != ""
    ensures id == DefaultProjectId || (v == Serverless && env == Some(id))
    ensures v == Serverless && Truthy(env) ==> id == env.value
  {
    if v == Serverless && Truthy(env) then env.value else DefaultProjectId
  }

  /** The store URL of a collection, or of one document in it. */
  function DocumentsUrl(projectId: string, collection: string, documentId: Option<string>): string {
    "https://firestore.googleapis.com/v1/projects/" + projectId + "/databases/(default)/documents/" + collection
      + (match documentId case Some(d) => "/" + d case None => "")
  }

  function Failure(cause: ErrorCause): Reply {
    Reply(500, ServerError(cause))
  }

  /** The reply to a list, get or upsert: the store's JSON body, with the
      store's status in the serverless handler and Express's default 200 in
      the standalone server. */
  function RelayReply(v: Variant, store: StoreOutcome): (r: Reply)
    ensures r.body.Relayed? <==> store.Responded? && store.reply.body.Some?
    ensures r.body.Relayed? ==>
      && r.body.json == store.reply.body.value
      && r.status == (if v == Serverless then store.reply.status else 200)
    ensures !r.body.Relayed? ==> r.status == 500
    // a failed fetch, or a body that is not JSON, throws: a 500
    ensures store.Unreachable? ==> r == Failure(StoreUnreachable)
    ensures store.Responded? && store.reply.body.None? ==> r == Failure(StoreBodyUnparsable)
  {
    match store
    case Unreachable => Failure(StoreUnreachable)
    case Responded(StoreReply(status, body)) =>
      match body
      case None => Failure(StoreBodyUnparsable)
      case Some(json) => Reply(if v == Serverless then status else 200, Relayed(json))
  }

  /** The reply to a delete: a fixed confirmation whenever the store reports
      success, whatever its body; otherwise the store's status and body. */
  function DeleteReply(store: StoreOutcome): (r: Reply)
    ensures r.body == DeleteConfirmed <==> store.Responded? && StatusOk(store.reply.status)
    ensures r.status == 200 <==> r.body == DeleteConfirmed
    ensures store.Responded? && !StatusOk(store.reply.status) && store.reply.body.Some? ==>
      r == Reply(store.reply.status, Relayed(store.reply.body.value))
    // a failed fetch, or a failure reply whose body is not JSON, throws: a 500
    ensures store.Unreachable? ==> r == Failure(StoreUnreachable)
    ensures store.Responded? && !StatusOk(store.reply.status) && store.reply.body.None? ==>
      r == Failure(StoreBodyUnparsable)
  {
    match store
    case Unreachable => Failure(StoreUnreachable)
    case Responded(StoreReply(status, body)) =>
      if StatusOk(status) then Reply(200, DeleteConfirmed)
      else match body
        case None => Failure(StoreBodyUnparsable)
        case Some(json) => Reply(status, Relayed(json))
  }

  /** The store call a route makes with a token in hand. */
  function CallFor(v: Variant, route: Route, token: string, world: World, body: map<string, JsonValue>): StoreCall
    requires !route.TokenRoute?
  {
    var project := ProjectId(v, world.projectEnv);
    match route
    case ListRoute(c) => StoreCall(Read, DocumentsUrl(project, c, None), token, None)
    case GetRoute(c, d) => StoreCall(Read, DocumentsUrl(project, c, Some(d)), token, None)
    case UpsertRoute(c, d) => StoreCall(Patch, DocumentsUrl(project, c, Some(d)), token, Some(EncodeFields(body)))
    case DeleteRoute(c, d) => StoreCall(Remove, DocumentsUrl(project, c, Some(d)), token, None)
  }

  /** A routed request in either deployment: acquire a token, then answer the
      token endpoint or call the store and shape its answer. */
  function Serve(v: Variant, route: Route, cache: CacheState, world: World, body: map<string, JsonValue>): (r: Handled)
    // a token failure is a 500 that makes no store call and leaves the cache alone
    ensures var acq := GetAccessToken(v, cache, world.Now(), world.credential, world.exchange);
      && (acq.result.Err? <==> r.reply.body.ServerError? && r.reply.body.cause.TokenFailure?)
      && (acq.result.Err? ==> r == Handled(Failure(TokenFailure(acq.result.error)), cache, None))
    // every store call carries the cached token, which has more than the buffer left
    ensures r.call.Some? ==> r.cache.cachedToken == Some(r.call.value.bearer) && Fresh(r.cache, world.Now())
    // the token endpoint reports the cached token and its remaining lifetime at reply time
    ensures route.TokenRoute? && !r.reply.body.ServerError? ==>
      && r.cache.cachedToken.Some?
      && r.reply == Reply(200, TokenGrant(r.cache.cachedToken.value, r.cache.tokenExpiry - world.ReplyNow()))
    // each store route makes the matching call on the matching document
    ensures r.call.Some? ==> !route.TokenRoute? && r.call.value.url == DocumentsUrl(
      ProjectId(v, world.projectEnv), route.collection,
      if route.ListRoute? then None else Some(route.documentId))
    ensures r.call.Some? ==> (r.call.value.verb == Patch <==> route.UpsertRoute?)
    ensures r.call.Some? ==> (r.call.value.verb == Remove <==> route.DeleteRoute?)
    // only an upsert sends a document, and it is the encoded request body
    ensures r.call.Some? ==> r.call.value.document == if route.UpsertRoute? then Some(EncodeFields(body)) else None
    // with a token in hand, the token route reports the token getAccessToken
    // returned and the expiry it left in the cache, and calls nothing
    ensures var acq := GetAccessToken(v, cache, world.Now(), world.credential, world.exchange);
      acq.result.Ok? && route.TokenRoute? ==>
        r == Handled(Reply(200, TokenGrant(acq.result.value, acq.state.tokenExpiry - world.ReplyNow())), acq.state, None)
    // with a token in hand, a store route always makes its call, and its reply
    // is the delete normalisation for a delete and the plain relay otherwise
    ensures var acq := GetAccessToken(v, cache, world.Now(), world.credential, world.exchange);
      acq.result.Ok? && !route.TokenRoute? ==>
        && r.cache == acq.state
        && r.call == Some(CallFor(v, route, acq.result.value, world, body))
        && r.reply == (if route.DeleteRoute? then DeleteReply(world.store) else RelayReply(v, world.store))
  {
    var acq := GetAccessToken(v, cache, world.Now(), world.credential, world.exchange);
    match acq.result
    case Err(e) => Handled(Failure(TokenFailure(e)), acq.state, None)
    case Ok(token) =>
      if route.TokenRoute? then
        Handled(Reply(200, TokenGrant(token, acq.state.tokenExpiry - world.ReplyNow())), acq.state, None)
      else
        var reply := if route.DeleteRoute? then DeleteReply(world.store) else RelayReply(v, world.store);
        Handled(reply, acq.state, Some(CallFor(v, route, token, world, body)))
  }

  /** The slice of the world a request's `getAccessToken` call sees. */
  function TokenCall(world: World): Call {
    Call(world.Now(), world.credential, world.exchange)
  }

  /** The serverless handler: classify the request, then answer it. */
  function Dispatch(verb: string, url: string, body: map<string, JsonValue>, cache: CacheState, world: World): (r: Handled)
    // a routed request is served as in either deployment
    ensures Classify(verb, url).Forward? ==> r == Serve(Serverless, Classify(verb, url).route, cache, world, body)
    // a store-prefix mismatch still runs getAccessToken, keeping its effect on
    // the cache, and answers 404 after a token or 500 on a token failure
    ensures Classify(verb, url) == TokenThenNotFound ==>
      var acq := GetAccessToken(Serverless, cache, world.Now(), world.credential, world.exchange);
      r == Handled(if acq.result.Ok? then Reply(404, RouteNotFound) else Failure(TokenFailure(acq.result.error)),
                   acq.state, None)
    // requests that need no token leave the cache alone and call nothing
    ensures verb == "OPTIONS" ==> r == Handled(Reply(200, NoContent), cache, None)
    ensures Classify(verb, url) == Health ==> r == Handled(Reply(200, HealthStatus), cache, None)
    ensures Classify(verb, url) == NotFound ==> r == Handled(Reply(404, RouteNotFound), cache, None)
    // "Route not found" answers exactly the unmatched requests, and after a
    // token under the store prefix only if the token was acquired
    ensures r.reply.body == RouteNotFound <==>
      || Classify(verb, url) == NotFound
      || (Classify(verb, url) == TokenThenNotFound
          && GetAccessToken(Serverless, cache, world.Now(), world.credential, world.exchange).result.Ok?)
    ensures r.reply.body == RouteNotFound ==> r.reply.status == 404 && r.call.None?
    // a store call only ever follows a successful token acquisition
    ensures r.call.Some? ==> Fresh(r.cache, world.Now()) && r.cache.cachedToken == Some(r.call.value.bearer)
    // the cache changes only through a refresh granted during this request
    ensures r.cache != cache ==> r.cache.tokenExpiry == world.Now() + TokenLifetime && Truthy(r.cache.cachedToken)
    ensures r.cache != cache ==> GrantedBy(TokenCall(world), r.cache)
  {
    match Classify(verb, url)
    case Preflight => Handled(Reply(200, NoContent), cache, None)
    case Health => Handled(Reply(200, HealthStatus), cache, None)
    case NotFound => Handled(Reply(404, RouteNotFound), cache, None)
    case TokenThenNotFound =>
      var acq := GetAccessToken(Serverless, cache, world.Now(), world.credential, world.exchange);
      if acq.result.Err? then Handled(Failure(TokenFailure(acq.result.error)), acq.state, None)
      else Handled(Reply(404, RouteNotFound), acq.state, None)
    case Forward(route) => Serve(Serverless, route, cache, world, body)
  }

  /** The token endpoint's `expires_in` is what is left of the cached token
      when the reply is built: more than the buffer minus the seconds spent,
      and exactly the full lifetime minus those seconds after a refresh. */
  lemma TokenEndpointExpiresIn(v: Variant, cache: CacheState, world: World, body: map<string, JsonValue>)
    ensures var r := Serve(v, TokenRoute, cache, world, body);
      r.reply.body.TokenGrant? ==>
        && r.reply.body.expiresIn > RefreshBuffer - (world.ReplyNow() - world.Now())
        && (r.cache != cache ==> r.reply.body.expiresIn == TokenLifetime - (world.ReplyNow() - world.Now()))
  {
  }

  /** A name usable as a single path segment. */
  predicate PlainName(name: string) {
    name != "" && '/' !in name && '?' !in name
  }

  /** The request path of a collection, and of one document in it. */
  function CollectionPath(collection: string): string {
    "/api/firestore/" + collection
  }

  function DocumentPath(collection: string, documentId: string): string {
    CollectionPath(collection) + "/" + documentId
  }

  lemma CollectionPathShape(c: string)
    ensures CollectionPath(c) == "" + "/" + ("api" + "/" + ("firestore" + "/" + c))
  {
  }

  lemma CollectionPathNoQuery(c: string)
    requires '?' !in c
    ensures '?' !in CollectionPath(c)
  {
  }

  lemma CollectionPathSegments(c: string)
    requires PlainName(c)
    ensures StripQuery(CollectionPath(c)) == CollectionPath(c)
    ensures Segments(CollectionPath(c)) == ["api", "firestore", c]
  {
    CollectionPathNoQuery(c);
    SplitSeparatorFree(CollectionPath(c), '?');
    CollectionPathSplit(c);
  }

  lemma CollectionPathSplit(c: string)
    requires c != "" && '/' !in c
    ensures Segments(CollectionPath(c)) == ["api", "firestore", c]
  {
    var tail := "firestore" + "/" + c;
    var rest := "api" + "/" + tail;
    CollectionPathShape(c);
    SegmentsOfName(c);
    SegmentsOfName("firestore");
    SegmentsAppend("firestore", c);
    assert Segments(tail) == ["firestore", c];
    SegmentsOfName("api");
    SegmentsAppend("api", tail);
    assert Segments(rest) == ["api", "firestore", c];
    SegmentsOfEmpty();
    SegmentsAppend("", rest);
  }

  lemma DocumentPathSegments(c: string, d: string)
    requires PlainName(c) && PlainName(d)
    ensures StripQuery(DocumentPath(c, d)) == DocumentPath(c, d)
    ensures Segments(DocumentPath(c, d)) == ["api", "firestore", c, d]
  {
    CollectionPathSegments(c);
    var path := DocumentPath(c, d);
    assert '?' !in path by {
      CollectionPathNoQuery(c);
      assert forall i :: 0 <= i < |path| ==>
        path[i] == if i < |CollectionPath(c)| then CollectionPath(c)[i]
                   else if i == |CollectionPath(c)| then '/' else d[i - |CollectionPath(c)| - 1];
    }
    SplitSeparatorFree(path, '?');
    SegmentsAppend(CollectionPath(c), d);
    SegmentsOfName(d);
  }

  /** `GET /api/firestore/<c>` for any collection name: with a token it lists
      the collection and relays the store's answer; a token failure is a 500
      that leaves the cache alone. */
  lemma ListRequestHandled(c: string, body: map<string, JsonValue>, cache: CacheState, world: World)
    requires PlainName(c)
    ensures var r := Dispatch("GET", CollectionPath(c), body, cache, world);
            var acq := GetAccessToken(Serverless, cache, world.Now(), world.credential, world.exchange);
      && (acq.result.Ok? ==>
            && r.reply == RelayReply(Serverless, world.store)
            && r.call == Some(StoreCall(Read, DocumentsUrl(ProjectId(Serverless, world.projectEnv), c, None),
                                        acq.result.value, None)))
      && (acq.result.Err? ==> r.reply.status == 500 && r.cache == cache && r.call.None?)
  {
    CollectionPathSegments(c);
    assert Classify("GET", CollectionPath(c)) == Forward(ListRoute(c));
  }

  /** GET, POST or DELETE on `/api/firestore/<c>/<d>` for any names: with a
      token the request reaches that document with the matching store verb,
      and the reply is the delete normalisation for DELETE and the plain relay
      otherwise; a token failure is a 500 that leaves the cache alone. */
  lemma DocumentRequestHandled(verb: string, c: string, d: string, body: map<string, JsonValue>, cache: CacheState, world: World)
    requires PlainName(c) && PlainName(d)
    requires verb == "GET" || verb == "POST" || verb == "DELETE"
    ensures var r := Dispatch(verb, DocumentPath(c, d), body, cache, world);
            var acq := GetAccessToken(Serverless, cache, world.Now(), world.credential, world.exchange);
      && (acq.result.Ok? ==>
            && r.reply == (if verb == "DELETE" then DeleteReply(world.store) else RelayReply(Serverless, world.store))
            && r.call.Some?
            && r.call.value.url == DocumentsUrl(ProjectId(Serverless, world.projectEnv), c, Some(d))
            && r.call.value.verb == (if verb == "GET" then Read else if verb == "POST" then Patch else Remove)
            && r.call.value.document == (if verb == "POST" then Some(EncodeFields(body)) else None))
      && (acq.result.Err? ==> r.reply.status == 500 && r.cache == cache && r.call.None?)
  {
    DocumentPathSegments(c, d);
  }

  /** The request path of document `42` in `users`. */
  lemma UsersDocumentPath()
    ensures DocumentPath("users", "42") == "/api/firestore/users/42"
  {
  }

  /** `GET /api/firestore/<c>/<d>` with a valid cached token reads that
      document with the cached token and relays the store's status and body
      untranslated, leaving the cache as it was. */
  lemma ReadWithCachedToken(c: string, d: string, cache: CacheState, world: World, body: map<string, JsonValue>, status: int, json: JsonValue)
    requires PlainName(c) && PlainName(d)
    requires Fresh(cache, world.Now())
    requires world.store == Responded(StoreReply(status, Some(json)))
    ensures Dispatch("GET", DocumentPath(c, d), body, cache, world)
         == Handled(Reply(status, Relayed(json)), cache,
              Some(StoreCall(Read, DocumentsUrl(ProjectId(Serverless, world.projectEnv), c, Some(d)),
                             cache.cachedToken.value, None)))
  {
    DocumentPathSegments(c, d);
    assert Classify("GET", DocumentPath(c, d)) == Forward(GetRoute(c, d));
  }

  /** The same read for document `42` of `users`, on the literal request path. */
  lemma GetDocumentScenario(cache: CacheState, world: World, body: map<string, JsonValue>, status: int, json: JsonValue)
    requires Fresh(cache, world.Now())
    requires world.store == Responded(StoreReply(status, Some(json)))
    ensures Dispatch("GET", "/api/firestore/users/42", body, cache, world)
         == Handled(Reply(status, Relayed(json)), cache,
              Some(StoreCall(Read, DocumentsUrl(ProjectId(Serverless, world.projectEnv), "users", Some("42")),
                             cache.cachedToken.value, None)))
  {
    UsersDocumentPath();
    ReadWithCachedToken("users", "42", cache, world, body, status, json);
  }

  /** `POST /api/firestore/<c>/<d>` with a valid cached token patches that
      document with the encoded body, using the cached token and leaving the
      cache as it was. */
  lemma PatchWithCachedToken(c: string, d: string, cache: CacheState, world: World, body: map<string, JsonValue>)
    requires PlainName(c) && PlainName(d)
    requires Fresh(cache, world.Now())
    ensures var r := Dispatch("POST", DocumentPath(c, d), body, cache, world);
      && r.cache == cache
      && r.call == Some(StoreCall(Patch, DocumentsUrl(ProjectId(Serverless, world.projectEnv), c, Some(d)),
                                  cache.cachedToken.value, Some(EncodeFields(body))))
  {
    DocumentPathSegments(c, d);
    assert Classify("POST", DocumentPath(c, d)) == Forward(UpsertRoute(c, d));
  }

  /** `POST /api/firestore/users/42` with body `{"name":"Ann","age":30}`
      patches that document with
      `{"name":{"stringValue":"Ann"},"age":{"integerValue":30}}`. */
  lemma UpsertScenario(cache: CacheState, world: World)
    requires Fresh(cache, world.Now())
    ensures var r := Dispatch("POST", "/api/firestore/users/42",
                              map["name" := JString("Ann"), "age" := JNumber(30)], cache, world);
      && r.cache == cache
      && r.call == Some(StoreCall(Patch, DocumentsUrl(ProjectId(Serverless, world.projectEnv), "users", Some("42")),
                                  cache.cachedToken.value,
                                  Some(map["name" := StringValue("Ann"), "age" := IntegerValue(30)])))
  {
    UsersDocumentPath();
    PatchWithCachedToken("users", "42", cache, world, map["name" := JString("Ann"), "age" := JNumber(30)]);
    ExampleBody();
  }

  /** One inbound request to the serverless handler. */
  datatype Request = Request(verb: string, url: string, body: map<string, JsonValue>, world: World)

  /** The cache after a sequence of requests, handled one at a time. */
  function Replay(cache: CacheState, requests: seq<Request>): CacheState
    decreases |requests|
  {
    if |requests| == 0 then cache
    else
      var q := requests[0];
      Replay(Dispatch(q.verb, q.url, q.body, cache, q.world).cache, requests[1..])
  }

  /** However many requests the handler serves, the cache is empty as at
      start-up or holds a non-empty token. */
  lemma {:induction false} ReplayPreservesCoherent(cache: CacheState, requests: seq<Request>)
    requires Coherent(cache)
    ensures Coherent(Replay(cache, requests))
    decreases |requests|
  {
    if |requests| > 0 {
      var q := requests[0];
      ReplayPreservesCoherent(Dispatch(q.verb, q.url, q.body, cache, q.world).cache, requests[1..]);
    }
  }

  /** Across requests the cache is never a half-updated pair: it is the state
      the handler started with, or exactly the token and expiry granted to one
      of the requests. */
  lemma {:induction false} ReplayEndsInGrant(cache: CacheState, requests: seq<Request>)
    ensures Replay(cache, requests) == cache
         || exists i :: 0 <= i < |requests| && GrantedBy(TokenCall(requests[i].world), Replay(cache, requests))
    decreases |requests|
  {
    if |requests| > 0 {
      var q := requests[0];
      var c1 := Dispatch(q.verb, q.url, q.body, cache, q.world).cache;
      var t := Replay(cache, requests);
      assert t == Replay(c1, requests[1..]);
      ReplayEndsInGrant(c1, requests[1..]);
      if t == c1 {
        if c1 != cache {
          assert GrantedBy(TokenCall(requests[0].world), t);
        }
      } else {
        var j :| 0 <= j < |requests[1..]| && GrantedBy(TokenCall(requests[1..][j].world), t);
        assert requests[1..][j] == requests[j + 1];
      }
    }
  }
}

=== FILE: paths.dfy ===
/** The string handling the serverless handler applies to a request URL:
    `url.split('?')[0]` and `path.split('/').filter(Boolean)`. */
module Paths {

  /** Glues parts back together with `sep` between neighbours
      (JavaScript's `parts.join(sep)` for a single-character separator). */
  function Join(parts: seq<string>, sep: char): string
    requires |parts| >= 1
    decreases |parts|
  {
    if |parts| == 1 then parts[0] else parts[0] + [sep] + Join(parts[1..], sep)
  }

  /** JavaScript's `s.split(sep)` for a single-character separator: the
      maximal separator-free runs, in order, including empty ones. */
  function Split(s: string, sep: char): (parts: seq<string>)
    ensures |parts| >= 1
    ensures forall i :: 0 <= i < |parts| ==> sep !in parts[i]
    ensures Join(parts, sep) == s
    decreases |s|
  {
    if |s| == 0 then [""]
    else if s[0] == sep then
      var rest := Split(s[1..], sep);
      assert s == [sep] + s[1..];
      [""] + rest
    else
      var rest := Split(s[1..], sep);
      JoinConsFirst(s[0], rest, sep);
      assert s == [s[0]] + s[1..];
      [[s[0]] + rest[0]] + rest[1..]
  }

  /** Prefixing a character to the first part prefixes it to the join. */
  lemma JoinConsFirst(c: char, parts: seq<string>, sep: char)
    requires |parts| >= 1
    ensures Join([[c] + parts[0]] + parts[1..], sep) == [c] + Join(parts, sep)
  {
  }

  /** Split is the only way to cut `s` into separator-free parts: any such
      cutting that joins back to `s` is the one Split returns. */
  lemma {:induction false} SplitUnique(s: string, sep: char, parts: seq<string>)
    requires |parts| >= 1
    requires forall i :: 0 <= i < |parts| ==> sep !in parts[i]
    requires Join(parts, sep) == s
    ensures parts == Split(s, sep)
    decreases |s|, |parts[0]|
  {
    if |parts| == 1 {
      assert s == parts[0];
      SplitSeparatorFree(s, sep);
    } else if parts[0] == "" {
      assert s == [sep] + Join(parts[1..], sep);
      assert s[0] == sep && s[1..] == Join(parts[1..], sep);
      SplitUnique(s[1..], sep, parts[1..]);
    } else {
      var c := parts[0][0];
      var shorter := [parts[0][1..]] + parts[1..];
      assert parts[0] == [c] + parts[0][1..];
      assert shorter[1..] == parts[1..];
      assert parts == [[c] + shorter[0]] + shorter[1..];
      JoinConsFirst(c, shorter, sep);
      assert s == [c] + Join(shorter, sep);
      assert s[0] == c && s[1..] == Join(shorter, sep);
      assert c != sep;
      forall i | 0 <= i < |shorter| ensures sep !in shorter[i] {
        if i == 0 {
          assert forall x :: x in shorter[0] ==> x in parts[0];
        } else {
          assert shorter[i] == parts[i];
        }
      }
      SplitUnique(s[1..], sep, shorter);
    }
  }

  /** A string without the separator splits into itself alone. */
  lemma {:induction false} SplitSeparatorFree(s: string, sep: char)
    requires sep !in s
    ensures Split(s, sep) == [s]
    decreases |s|
  {
    if |s| > 0 {
      assert sep !in s[1..] by {
        assert forall x :: x in s[1..] ==> x in s;
      }
      SplitSeparatorFree(s[1..], sep);
    }
  }

  /** `url.split('?')[0]`: the URL up to its first `?`. */
  function StripQuery(url: string): (path: string)
    ensures '?' !in path
    ensures path <= url
    ensures |path| < |url| ==> url[|path|] == '?'
  {
    var parts := Split(url, '?');
    JoinFirstIsPrefix(parts, '?');
    Split(url, '?')[0]
  }

  lemma JoinFirstIsPrefix(parts: seq<string>, sep: char)
    requires |parts| >= 1
    ensures parts[0] <= Join(parts, sep)
    ensures |parts| > 1 ==> |parts[0]| < |Join(parts, sep)| && Join(parts, sep)[|parts[0]|] == sep
  {
  }

  /** `parts.filter(Boolean)`: the non-empty parts, in order. */
  function NonEmpty(parts: seq<string>): (kept: seq<string>)
    ensures forall i :: 0 <= i < |kept| ==> kept[i] != ""
    ensures forall x :: x in kept <==> x in parts && x != ""
    decreases |parts|
  {
    if |parts| == 0 then []
    else if parts[0] == "" then NonEmpty(parts[1..])
    else [parts[0]] + NonEmpty(parts[1..])
  }

  /** The path segments the handler dispatches on. */
  function Segments(path: string): (segs: seq<string>)
    ensures forall i :: 0 <= i < |segs| ==> segs[i] != "" && '/' !in segs[i]
  {
    var parts := Split(path, '/');
    var segs := NonEmpty(parts);
    assert forall i :: 0 <= i < |segs| ==> segs[i] in parts;
    segs
  }

  /** Joining two lists of parts puts one separator between them. */
  lemma {:induction false} JoinAppend(p: seq<string>, q: seq<string>, sep: char)
    requires |p| >= 1 && |q| >= 1
    ensures Join(p + q, sep) == Join(p, sep) + [sep] + Join(q, sep)
    decreases |p|
  {
    if |p| == 1 {
      assert (p + q)[1..] == q;
    } else {
      assert (p + q)[1..] == p[1..] + q;
      JoinAppend(p[1..], q, sep);
    }
  }

  /** Splitting at a separator splits each side on its own. */
  lemma SplitAppend(a: string, b: string, sep: char)
    ensures Split(a + [sep] + b, sep) == Split(a, sep) + Split(b, sep)
  {
    var parts := Split(a, sep) + Split(b, sep);
    JoinAppend(Split(a, sep), Split(b, sep), sep);
    forall i | 0 <= i < |parts| ensures sep !in parts[i] {
      if i >= |Split(a, sep)| {
        assert parts[i] == Split(b, sep)[i - |Split(a, sep)|];
      }
    }
    SplitUnique(a + [sep] + b, sep, parts);
  }

  /** `filter(Boolean)` keeps order and multiplicity: it distributes over
      concatenation... */
  lemma {:induction false} NonEmptyAppend(a: seq<string>, b: seq<string>)
    ensures NonEmpty(a + b) == NonEmpty(a) + NonEmpty(b)
    decreases |a|
  {
    if |a| == 0 {
      assert a + b == b;
    } else {
      assert (a + b)[1..] == a[1..] + b;
      NonEmptyAppend(a[1..], b);
    }
  }

  /** ... and keeps a single part exactly when it is non-empty. */
  lemma NonEmptySingle(x: string)
    ensures NonEmpty([x]) == if x == "" then [] else [x]
  {
    assert [x][1..] == [];
  }

  /** The segments of `a/b` are those of `a` followed by those of `b`. */
  lemma SegmentsAppend(a: string, b: string)
    ensures Segments(a + "/" + b) == Segments(a) + Segments(b)
  {
    SplitAppend(a, b, '/');
    NonEmptyAppend(Split(a, '/'), Split(b, '/'));
  }

  /** The empty path has no segments. */
  lemma SegmentsOfEmpty()
    ensures Segments("") == []
  {
  }

  /** A non-empty `/`-free string is a single segment. */
  lemma SegmentsOfName(name: string)
    requires name != "" && '/' !in name
    ensures Segments(name) == [name]
  {
    SplitSeparatorFree(name, '/');
    NonEmptySingle(name);
  }

  /** Whatever follows the first `?` of a URL has no bearing on its path. */
  lemma QueryIgnored(path: string, query: string)
    requires '?' !in path
    ensures StripQuery(path + "?" + query) == path
  {
    var parts := [path] + Split(query, '?');
    assert parts[1..] == Split(query, '?');
    assert Join(parts, '?') == path + "?" + query;
    SplitUnique(path + "?" + query, '?', parts);
  }

  /** The literal paths the handler compares against, cut into segments. */
  lemma RootSegments()
    ensures Segments("/") == []
  {
    assert Join(["", ""], '/') == "/";
    SplitUnique("/", '/', ["", ""]);
  }

  lemma HealthSegments()
    ensures Segments("/health") == ["health"]
  {
    var parts := ["", "health"];
    assert Join(parts, '/') == "/health";
    SplitUnique("/health", '/', parts);
    assert NonEmpty(parts) == ["health"];
  }

  lemma TokenSegments()
    ensures Segments("/api/token") == ["api", "token"]
  {
    var parts := ["", "api", "token"];
    assert Join(parts, '/') == "/api/token";
    SplitUnique("/api/token", '/', parts);
    assert NonEmpty(parts) == ["api", "token"];
  }
}

=== FILE: routing.dfy ===
/** Request classification of the serverless handler: `(verb, url)` to the
    action the handler takes. */
module Routing {
  import opened Paths

  /** A request that reaches the document store (or the token endpoint). */
  datatype Route =
    | TokenRoute
    | ListRoute(collection: string)
    | GetRoute(collection: string, documentId: string)
    | UpsertRoute(collection: string, documentId: string)
    | DeleteRoute(collection: string, documentId: string)

  /** What the handler does with a request. `TokenThenNotFound` is a path
      under `/api/firestore` that matches no operation: the handler still
      acquires a token before answering 404. */
  datatype Action =
    | Preflight
    | Health
    | Forward(route: Route)
    | TokenThenNotFound
    | NotFound

  predicate IsHealthPath(path: string) {
    path == "/health" || path == "/"
  }

  predicate IsFirestorePath(segs: seq<string>) {
    |segs| >= 2 && segs[0] == "api" && segs[1] == "firestore"
  }

  /** Dispatch among the store operations once the path is known to start
      with `api/firestore`. */
  function FirestoreAction(verb: string, segs: seq<string>): Action
    requires IsFirestorePath(segs)
  {
    if |segs| < 3 then TokenThenNotFound
    else if |segs| == 3 then
      if verb == "GET" then Forward(ListRoute(segs[2])) else TokenThenNotFound
    else if verb == "GET" then Forward(GetRoute(segs[2], segs[3]))
    else if verb == "POST" then Forward(UpsertRoute(segs[2], segs[3]))
    else if verb == "DELETE" then Forward(DeleteRoute(segs[2], segs[3]))
    else TokenThenNotFound
  }

  /** The handler's dispatch on method and URL. */
  function Classify(verb: string, url: string): (a: Action)
    // a preflight answers every OPTIONS request, whatever the URL, and nothing else
    ensures a == Preflight <==> verb == "OPTIONS"
    // the health check answers `/` and `/health` for every other method
    ensures a == Health <==> verb != "OPTIONS" && IsHealthPath(StripQuery(url))
    // the token endpoint is the exact path `/api/token` with GET
    ensures a == Forward(TokenRoute) <==>
      verb == "GET" && StripQuery(url) == "/api/token"
    // store operations are keyed on the third and fourth non-empty segments
    ensures a.Forward? && !a.route.TokenRoute? ==>
      var segs := Segments(StripQuery(url));
      && IsFirestorePath(segs)
      && |segs| >= 3 && segs[2] == a.route.collection
      && (a.route.ListRoute? <==> |segs| == 3)
      && (!a.route.ListRoute? ==> segs[3] == a.route.documentId)
      && (a.route.ListRoute? || a.route.GetRoute? <==> verb == "GET")
      && (a.route.UpsertRoute? <==> verb == "POST")
      && (a.route.DeleteRoute? <==> verb == "DELETE")
    // conversely, under `api/firestore` the segment count and the method pick
    // the operation, and every other combination is a 404 after a token
    ensures verb != "OPTIONS" && IsFirestorePath(Segments(StripQuery(url))) ==>
      var segs := Segments(StripQuery(url));
      && (|segs| == 3 && verb == "GET" ==> a == Forward(ListRoute(segs[2])))
      && (|segs| >= 4 && verb == "GET" ==> a == Forward(GetRoute(segs[2], segs[3])))
      && (|segs| >= 4 && verb == "POST" ==> a == Forward(UpsertRoute(segs[2], segs[3])))
      && (|segs| >= 4 && verb == "DELETE" ==> a == Forward(DeleteRoute(segs[2], segs[3])))
      && (a == TokenThenNotFound <==>
            || |segs| < 3
            || (|segs| == 3 && verb != "GET")
            || (|segs| >= 4 && verb != "GET" && verb != "POST" && verb != "DELETE"))
    ensures a == TokenThenNotFound ==> verb != "OPTIONS" && IsFirestorePath(Segments(StripQuery(url)))
    // a request that matches no route gets a 404
    ensures a == NotFound <==>
      var path := StripQuery(url);
      && verb != "OPTIONS"
      && !IsHealthPath(path)
      && !(path == "/api/token" && verb == "GET")
      && !IsFirestorePath(Segments(path))
  {
    RootSegments();
    HealthSegments();
    TokenSegments();
    if verb == "OPTIONS" then Preflight
    else
      var path := StripQuery(url);
      var segs := Segments(path);
      if IsHealthPath(path) then Health
      else if path == "/api/token" && verb == "GET" then Forward(TokenRoute)
      else if IsFirestorePath(segs) then FirestoreAction(verb, segs)
      else NotFound
  }

  /** The query string never influences dispatch. */
  lemma QueryStringIgnored(verb: string, path: string, query: string)
    requires '?' !in path
    ensures Classify(verb, path + "?" + query) == Classify(verb, path)
  {
    QueryIgnored(path, query);
    SplitSeparatorFree(path, '?');
  }

  /** A path with four or more segments is none of the literal routes, so
      only the store dispatch can apply to it. */
  lemma LongPathDispatch(verb: string, url: string)
    requires verb != "OPTIONS" && |Segments(StripQuery(url))| >= 4
    ensures var segs := Segments(StripQuery(url));
      Classify(verb, url) == if IsFirestorePath(segs) then FirestoreAction(verb, segs) else NotFound
  {
    RootSegments();
    HealthSegments();
    TokenSegments();
  }

  /** Segments after the fourth never influence dispatch: two URLs whose
      first four segments agree are handled alike. */
  lemma ExtraSegmentsIgnored(verb: string, url1: string, url2: string)
    requires |Segments(StripQuery(url1))| >= 4 && |Segments(StripQuery(url2))| >= 4
    requires Segments(StripQuery(url1))[..4] == Segments(StripQuery(url2))[..4]
    ensures Classify(verb, url1) == Classify(verb, url2)
  {
    if verb != "OPTIONS" {
      LongPathDispatch(verb, url1);
      LongPathDispatch(verb, url2);
      var s1 := Segments(StripQuery(url1));
      var s2 := Segments(StripQuery(url2));
      assert s1[0] == s2[0] && s1[1] == s2[1] && s1[2] == s2[2] && s1[3] == s2[3] by {
        assert s1[0] == s1[..4][0] && s1[1] == s1[..4][1] && s1[2] == s1[..4][2] && s1[3] == s1[..4][3];
        assert s2[0] == s2[..4][0] && s2[1] == s2[..4][1] && s2[2] == s2[..4][2] && s2[3] == s2[..4][3];
      }
    }
  }
}

=== FILE: token_cache.dfy ===
/** The access-token lifecycle shared by both entry points: a two-field cache
    (`cachedToken`, `tokenExpiry`) refreshed through a JWT-bearer exchange with
    the authorization server. The clock, the credential load and the exchange
    are inputs, so every step is a pure function of the state and the world. */
module TokenCache {
  import opened Wrappers

  /** A cached token is reused only while more than this many seconds remain. */
  const RefreshBuffer: int := 300

  /** The lifetime the proxy assumes for every token it obtains, and the
      validity window of the assertion it signs. */
  const TokenLifetime: int := 3600

  /** Audience of the signed assertion: the authorization server's token endpoint. */
  const TokenEndpoint: string := "https://oauth2.googleapis.com/token"

  const DatastoreScope: string := "https://www.googleapis.com/auth/datastore"
  const FirebaseScopes: string :=
    "https://www.googleapis.com/auth/firebase https://www.googleapis.com/auth/userinfo.email"

  /** The two deployments of the proxy: the serverless handler (credential from
      an environment variable) and the standalone server (credential from a
      key file). */
  datatype Variant = Serverless | Standalone

  /** JavaScript truthiness of a token slot: `null` and `""` are both falsy. */
  predicate Truthy(t: Option<string>) {
    t.Some? && t.value != ""
  }

  /** The process-wide cache. A new process starts from `Initial`. */
  datatype CacheState = CacheState(cachedToken: Option<string>, tokenExpiry: int)

  const Initial: CacheState := CacheState(None, 0)

  /** The cache-hit condition: a token is present and expires strictly later
      than `now` plus the safety buffer. */
  predicate Fresh(s: CacheState, now: int) {
    Truthy(s.cachedToken) && s.tokenExpiry > now + RefreshBuffer
  }

  /** What loading the service-account credential yields: its issuer email,
      nothing (variable unset or empty / file absent), or something unusable (bad JSON,
      no private key). */
  datatype CredentialLoad = Loaded(clientEmail: string) | Unset | Malformed

  /** What the token exchange yields: a parsed reply whose `access_token`
      field may be absent, or a transport/parse failure. */
  datatype ExchangeResult = Answered(accessToken: Option<string>) | TransportFailure

  datatype TokenError =
    | MissingConfiguration   // the credential variable is not set
    | UnreadableCredential   // the runtime's own error while reading or parsing the credential
    | ExchangeFailed         // the runtime's own error while talking to the authorization server
    | NoAccessToken          // "Failed to get access token"

  /** The claims of the signed JWT-bearer assertion. */
  datatype Assertion = Assertion(iss: string, scope: string, aud: string, iat: int, exp: int)

  /** One call of `getAccessToken`: the cache afterwards, what the call
      returned or threw, and the assertion sent to the authorization server
      (`None` when no exchange took place). */
  datatype Acquisition = Acquisition(state: CacheState, result: Result<string, TokenError>, sent: Option<Assertion>)

  /** The space-separated scope each deployment requests. */
  function Scope(v: Variant): string {
    match v
    case Serverless => DatastoreScope + " " + FirebaseScopes
    case Standalone => FirebaseScopes
  }

  /** `Math.floor(Date.now() / 1000)`: whole seconds since the epoch. */
  function EpochSeconds(millis: int): (secs: int)
    ensures secs * 1000 <= millis < secs * 1000 + 1000
  {
    millis / 1000
  }

  function BuildAssertion(v: Variant, clientEmail: string, now: int): Assertion {
    Assertion(clientEmail, Scope(v), TokenEndpoint, now, now + TokenLifetime)
  }

  /** The error raised when the credential cannot be loaded. */
  function CredentialError(v: Variant, cred: CredentialLoad): TokenError
    requires !cred.Loaded?
  {
    if v == Serverless && cred == Unset then MissingConfiguration else UnreadableCredential
  }

  /** `getAccessToken` at time `now`. */
  function GetAccessToken(v: Variant, s: CacheState, now: int, cred: CredentialLoad, exchange: ExchangeResult): (r: Acquisition)
    // a cache hit returns the cached token, leaves the cache alone and sends nothing
    ensures Fresh(s, now) ==> r == Acquisition(s, Ok(s.cachedToken.value), None)
    // an exchange happens exactly when the cache misses and the credential loads
    ensures r.sent.Some? <==> !Fresh(s, now) && cred.Loaded?
    // a normal return hands out the cached token, which then has more than the buffer left
    ensures r.result.Ok? ==> r.state.cachedToken == Some(r.result.value) && Fresh(r.state, now)
    // a failure leaves both fields exactly as they were
    ensures r.result.Err? ==> r.state == s
    // on a miss the call succeeds exactly when the credential loads and the
    // reply carries a non-empty access_token, which is then stored for the
    // full lifetime and returned
    ensures !Fresh(s, now) ==>
      (r.result.Ok? <==> cred.Loaded? && exchange.Answered? && Truthy(exchange.accessToken))
    ensures !Fresh(s, now) && r.result.Ok? ==>
      && r.state == CacheState(exchange.accessToken, now + TokenLifetime)
      && r.result.value == exchange.accessToken.value
    // the error names what went wrong
    ensures !Fresh(s, now) && !cred.Loaded? ==> r.result == Err(CredentialError(v, cred))
    ensures !Fresh(s, now) && cred.Loaded? && exchange.TransportFailure? ==> r.result == Err(ExchangeFailed)
    ensures !Fresh(s, now) && cred.Loaded? && exchange.Answered? && !Truthy(exchange.accessToken) ==>
      r.result == Err(NoAccessToken)
    // every assertion is minted for this call: issued now, valid for the fixed
    // lifetime, addressed to the token endpoint, with the deployment's scope
    ensures r.sent.Some? ==>
      r.sent.value == Assertion(cred.clientEmail, Scope(v), TokenEndpoint, now, now + TokenLifetime)
    // the cache only ever changes to a freshly granted token with the full lifetime
    ensures r.state != s ==> r.sent.Some? && r.state.tokenExpiry == now + TokenLifetime
  {
    if Fresh(s, now) then
      Acquisition(s, Ok(s.cachedToken.value), None)
    else if !cred.Loaded? then
      Acquisition(s, Err(CredentialError(v, cred)), None)
    else
      var assertion := BuildAssertion(v, cred.clientEmail, now);
      match exchange
      case TransportFailure =>
        Acquisition(s, Err(ExchangeFailed), Some(assertion))
      case Answered(token) =>
        if Truthy(token) then
          Acquisition(CacheState(token, now + TokenLifetime), Ok(token.value), Some(assertion))
        else
          Acquisition(s, Err(NoAccessToken), Some(assertion))
  }

  /** A refresh that the authorization server grants replaces both fields
      together with the granted token and `now + TokenLifetime`. */
  lemma RefreshReplacesWholeState(v: Variant, s: CacheState, now: int, email: string, token: string)
    requires !Fresh(s, now) && token != ""
    ensures GetAccessToken(v, s, now, Loaded(email), Answered(Some(token)))
         == Acquisition(CacheState(Some(token), now + TokenLifetime), Ok(token), Some(BuildAssertion(v, email, now)))
  {
  }

  /** The two deployments make the same cache decisions and hand out the
      same tokens; they differ only in the scope they request and in how a
      missing credential is reported. */
  lemma DeploymentsAgree(s: CacheState, now: int, cred: CredentialLoad, exchange: ExchangeResult)
    ensures var a := GetAccessToken(Serverless, s, now, cred, exchange);
            var b := GetAccessToken(Standalone, s, now, cred, exchange);
      && a.state == b.state
      && a.result.Ok? == b.result.Ok?
      && (a.result.Ok? ==> a.result == b.result)
      && (a.sent.Some? <==> b.sent.Some?)
      && (a.sent.Some? ==> a.sent.value.scope == DatastoreScope + " " + b.sent.value.scope)
  {
  }

  /** A state the cache can be in: empty as at start-up, or holding a
      non-empty token. No step ever leaves a token slot empty with a
      non-initial expiry, or stores an empty token. That the token and its
      expiry always come from the same grant is `RunEndsInGrant`. */
  predicate Coherent(s: CacheState) {
    (s.cachedToken == None && s.tokenExpiry == 0) || Truthy(s.cachedToken)
  }

  /** One invocation of `getAccessToken` with its slice of the world. */
  datatype Call = Call(now: int, cred: CredentialLoad, exchange: ExchangeResult)

  /** The cache after a sequence of calls, one at a time. */
  function Run(v: Variant, s: CacheState, calls: seq<Call>): CacheState
    decreases |calls|
  {
    if |calls| == 0 then s
    else
      var c := calls[0];
      Run(v, GetAccessToken(v, s, c.now, c.cred, c.exchange).state, calls[1..])
  }

  /** How many exchanges with the authorization server a sequence of calls makes. */
  function Exchanges(v: Variant, s: CacheState, calls: seq<Call>): nat
    decreases |calls|
  {
    if |calls| == 0 then 0
    else
      var c := calls[0];
      var r := GetAccessToken(v, s, c.now, c.cred, c.exchange);
      (if r.sent.Some? then 1 else 0) + Exchanges(v, r.state, calls[1..])
  }

  lemma StepPreservesCoherent(v: Variant, s: CacheState, now: int, cred: CredentialLoad, exchange: ExchangeResult)
    requires Coherent(s)
    ensures Coherent(GetAccessToken(v, s, now, cred, exchange).state)
  {
  }

  /** Every state reachable from start-up is coherent. */
  lemma {:induction false} RunPreservesCoherent(v: Variant, s: CacheState, calls: seq<Call>)
    requires Coherent(s)
    ensures Coherent(Run(v, s, calls))
    decreases |calls|
  {
    if |calls| > 0 {
      var c := calls[0];
      StepPreservesCoherent(v, s, c.now, c.cred, c.exchange);
      RunPreservesCoherent(v, GetAccessToken(v, s, c.now, c.cred, c.exchange).state, calls[1..]);
    }
  }

  /** The cache a call leaves behind when the authorization server grants it
      a token: that token, expiring a full lifetime after the call. */
  predicate GrantedBy(c: Call, t: CacheState) {
    && c.exchange.Answered?
    && Truthy(c.exchange.accessToken)
    && t == CacheState(c.exchange.accessToken, c.now + TokenLifetime)
  }

  /** The two fields never come from different calls: after any sequence of
      calls the cache is either the state it started from or exactly the
      token and expiry that one of those calls was granted. */
  lemma {:induction false} RunEndsInGrant(v: Variant, s: CacheState, calls: seq<Call>)
    ensures Run(v, s, calls) == s || exists i :: 0 <= i < |calls| && GrantedBy(calls[i], Run(v, s, calls))
    decreases |calls|
  {
    if |calls| > 0 {
      var c := calls[0];
      var s1 := GetAccessToken(v, s, c.now, c.cred, c.exchange).state;
      var t := Run(v, s, calls);
      assert t == Run(v, s1, calls[1..]);
      RunEndsInGrant(v, s1, calls[1..]);
      if t == s1 {
        if s1 != s {
          assert GrantedBy(calls[0], t);
        }
      } else {
        var j :| 0 <= j < |calls[1..]| && GrantedBy(calls[1..][j], t);
        assert calls[1..][j] == calls[j + 1];
      }
    }
  }

  /** With a non-negative clock, a step never moves the expiry backwards: a
      refresh only happens once the old expiry is within the buffer, and the
      new one is a full lifetime away. */
  lemma ExpiryNeverDecreases(v: Variant, s: CacheState, now: int, cred: CredentialLoad, exchange: ExchangeResult)
    requires Coherent(s) && now >= 0
    ensures GetAccessToken(v, s, now, cred, exchange).state.tokenExpiry >= s.tokenExpiry
  {
  }

  /** Once a token with expiry `E` is cached, every call made strictly before
      `E - RefreshBuffer` returns that same token, makes no exchange and leaves
      the cache alone, whatever the credential and the server would have done. */
  lemma {:induction false} QuietUntilBuffer(v: Variant, s: CacheState, calls: seq<Call>)
    requires Truthy(s.cachedToken)
    requires forall i :: 0 <= i < |calls| ==> calls[i].now < s.tokenExpiry - RefreshBuffer
    ensures Run(v, s, calls) == s
    ensures Exchanges(v, s, calls) == 0
    ensures forall i :: 0 <= i < |calls| ==>
      GetAccessToken(v, Run(v, s, calls[..i]), calls[i].now, calls[i].cred, calls[i].exchange).result
        == Ok(s.cachedToken.value)
    decreases |calls|
  {
    if |calls| > 0 {
      var c := calls[0];
      assert Fresh(s, c.now);
      assert forall i :: 0 <= i < |calls[1..]| ==> calls[1..][i].now == calls[i + 1].now;
      QuietUntilBuffer(v, s, calls[1..]);
      forall i | 0 <= i < |calls|
        ensures GetAccessToken(v, Run(v, s, calls[..i]), calls[i].now, calls[i].cred, calls[i].exchange).result
             == Ok(s.cachedToken.value)
      {
        assert forall j :: 0 <= j < |calls[..i]| ==> calls[..i][j].now == calls[j].now;
        QuietUntilBuffer(v, s, calls[..i]);
        assert Fresh(s, calls[i].now);
      }
    }
  }

  /** The refresh trigger: at or after `E - RefreshBuffer` (or with no token)
      a call with a loadable credential makes exactly one exchange, and a
      granted token is stored with expiry `now + TokenLifetime`. */
  lemma RefreshAtBuffer(v: Variant, s: CacheState, now: int, email: string, exchange: ExchangeResult)
    requires !Truthy(s.cachedToken) || now >= s.tokenExpiry - RefreshBuffer
    ensures var r := GetAccessToken(v, s, now, Loaded(email), exchange);
      && Exchanges(v, s, [Call(now, Loaded(email), exchange)]) == 1
      && (exchange.Answered? && Truthy(exchange.accessToken) ==>
            r.state == CacheState(exchange.accessToken, now + TokenLifetime))
  {
  }

  /** Starting from an empty cache, the first call that succeeds is an exchange. */
  lemma FirstTokenNeedsExchange(v: Variant, now: int, cred: CredentialLoad, exchange: ExchangeResult)
    ensures var r := GetAccessToken(v, Initial, now, cred, exchange);
      r.result.Ok? ==> r.sent.Some?
  {
  }
}

=== FILE: wrappers.dfy ===
/** Failure-compatible wrappers shared by the model: an optional value and a
    value-or-error result. */
module Wrappers {

  /** A value that may be absent (JavaScript `null` / `undefined`). */
  datatype Option<+T> = None | Some(value: T)

  /** The outcome of an operation that either returns a value or throws. */
  datatype Result<+T, +E> = Ok(value: T) | Err(error: E)
}
